=== FILE: README.md ===
# Blind-aid decision logic in Dafny

A model of the decision logic of `blind_aid_yolov10.py`, a webcam assistant
that detects objects, estimates how far the nearest one is and says it out
loud, under voice control. The camera, the YOLO detector, the
text-to-speech engine, the speech recogniser, the keyboard and the files the
program reads and writes are outside the model. Their results are
parameters: the labelled boxes of a frame, whether playback succeeds, the
clock readings, the recognised phrase, the distance the operator types.

Modules, following the program's sections:

- `Geometry`: detector boxes after `map(int, box.xyxy[0])`.
- `Distance`: `estimate_distance_cm`, the pinhole heuristic
  `K / (h + 1)` truncated to whole centimetres, with the fallback
  `K = 120000` while uncalibrated. The function `EstimateDistanceCm`
  carries no `ensures` of its own. Its contract is the `ensures` of `Trunc`
  together with the lemmas `FallbackIsIntegerDivision`,
  `CalibratedBracketsScale` and `EstimateNonIncreasing`.
- `Speech`: the throttle in `speak`. It keeps one timestamp and a 2.0 s
  cooldown, and the timestamp moves only when playback succeeds. Playbacks
  are logged, and a predicate `Spaced` states that they are a cooldown apart.
- `Calibration`: the capture step of `calibrate_interactive`. It picks the
  largest box centred within a quarter of the frame width.
- `CalibrationSession`: the rest of `calibrate_interactive`. It records
  `distance * height` per capture in `K_values`, and on exit either keeps K
  or stores the mean of the samples.
- `Voice`: the command branch of `voice_listener`. It lower-cases the phrase
  and matches "start detection", then "stop detection", then "calibrate".
- `Detection`: the frame body of `main`. It computes a distance per box,
  finds the nearest by a strict `<` scan from 999999, decides whether to
  announce it within 500 cm, and places it left/ahead/right by the middle
  third of the frame.
- `MainLoop`: one pass of `main`'s loop over the state
  `{active, calibration pending, K, throttle}`. It also defines a run that
  interleaves main-loop passes with listener passes. Serving a pending
  calibration (`ServeCalibration`) is described by the contracts of
  `CalibrationPlays` and `Step`.
- `Decimal` and `Wrappers`: Python's `str` of an integer, and `Option`.

Comparisons the program makes on floats are restated exactly over integers.
The centre `cx = (x1 + x2) / 2` is a half-integer. `abs(cx - w/2) < w*0.25`
becomes `2*|x1 + x2 - w| < w`. `cx < w/3` becomes `3*(x1 + x2) < 2*w`, and
`cx > 2w/3` becomes `3*(x1 + x2) > 4*w`. `CentreQuarterIsRealTest` and the
contract of `PositionOf` prove each integer form equal to the comparison
over the reals.

Three behaviours of the code are easy to misread, and the model keeps them:

- The throttle's timestamp is taken after playback and a 0.3 s pause. So a
  second call is played only if it comes 2.0 s after the first playback
  *finished*, not 2.0 s after the first call. `Speak` and `PlaysApart`
  state that rule.
- A calibrated estimate is `int(K / (h + 1))`, which truncates toward zero.
  For a negative K, which an operator can produce by typing a negative
  distance, this differs from floor division. `Trunc` models `int()`.
- The capture loop starts `best_area` at 0 and compares with a strict `>`,
  so a box of zero area is never captured. The nearest-object scan starts
  from 999999 with a strict `<`, so an object estimated at 999999 cm or
  more is never selected.

## Model

| member | source | states |
|---|---|---|
| Distance.Trunc | blind_aid_yolov10.py:78-79 | `int()` of a quotient truncates toward zero: the result is the whole number within one of the quotient on the side of zero |
| Distance.FallbackIsIntegerDivision | blind_aid_yolov10.py:75-78 | with no stored K and a height `h >= 0`, the estimate is the integer division `120000 / (h + 1)`; the `+1` keeps the divisor positive |
| Distance.CalibratedBracketsScale | blind_aid_yolov10.py:79 | with a stored `K >= 0` and `h >= 0`, the estimate is `Floor(K / (h + 1))`: a non-negative `d` with `d*(h+1) <= K < (d+1)*(h+1)` |
| Distance.EstimateNonIncreasing | blind_aid_yolov10.py:75-79 | for a non-negative scale, a taller box never gets a larger distance, and distances are non-negative |
| Decimal.NatToString | blind_aid_yolov10.py:271 | the text of a distance is a non-empty run of decimal digits with no leading zero |
| Decimal.IntToStringRoundTrip | blind_aid_yolov10.py:271 | the number written into the announcement reads back as the distance, negative ones included |
| Speech.Speak | blind_aid_yolov10.py:41-55 | a call plays exactly when `now - last >= 2.0` and playback succeeds; a dropped or failed call leaves the timestamp unchanged; a played call sets it to the clock read after playback, which is at least `now + 0.3` |
| Speech.SecondCallInsideCooldownIsDropped | blind_aid_yolov10.py:44-46 | a call less than 2.0 s after a played call started is dropped |
| Speech.FollowsThen | blind_aid_yolov10.py:43-53 | two stretches of calls, one after the other, form a single run of the throttle, with the playbacks concatenated |
| Speech.PlaysApart | blind_aid_yolov10.py:38-55 | in any run of the throttle, every playback starts at least 2.0 s after every earlier playback finished |
| Calibration.CentreQuarterIsRealTest | blind_aid_yolov10.py:107-117 | the integer centre test `2*abs(x1+x2-w) < w` is exactly `abs(cx - w/2) < w*0.25` |
| Calibration.ScanFrom | blind_aid_yolov10.py:110-119 | the capture loop keeps no box exactly when no box is centred with positive area; otherwise it keeps the centred box of largest area, the earliest among equals |
| Calibration.SelectCapture | blind_aid_yolov10.py:107-121 | run from `best_area = 0`, the selection returns none exactly when no box is centred with positive area, and otherwise the largest centred box, the first on ties |
| Calibration.LargestCentredUnique | blind_aid_yolov10.py:117-119 | the largest-centred box, first on ties, is unique, so the selection is fully determined |
| Calibration.Capture | blind_aid_yolov10.py:101-123 | a press of `c` finds no object exactly when there are no boxes, asks to centre the object exactly when no box is eligible, and otherwise captures the height of the largest centred box |
| Calibration.CapturedIffLargestCentred | blind_aid_yolov10.py:107-123 | a press captures exactly when some box is the largest centred one, and the captured height is that box's `y2 - y1` |
| Calibration.CapturedHeightPositive | blind_aid_yolov10.py:112-119 | with the detector's corners in order, a captured height is positive, since only a box of positive area is kept |
| CalibrationSession.Samples | blind_aid_yolov10.py:125-129 | `K_values` holds exactly one entry per press that captured a box |
| CalibrationSession.NoSamplesIffNoCapture | blind_aid_yolov10.py:125-136 | `K_values` stays empty exactly when no press captured a box |
| CalibrationSession.SamplesAppend | blind_aid_yolov10.py:125-129 | a further press appends its sample, if any, at the end, so the list keeps the order of the presses |
| CalibrationSession.SampleOfLargestCentred | blind_aid_yolov10.py:107-129 | a press whose frame has a largest centred box adds the typed distance times that box's height |
| CalibrationSession.SamplesPositive | blind_aid_yolov10.py:112-129 | with corners in order and positive typed distances, every entry of `K_values` is positive |
| CalibrationSession.MeanOfSamplesPositive | blind_aid_yolov10.py:112-141 | under the same conditions, the K a completed session stores is positive |
| CalibrationSession.Mean | blind_aid_yolov10.py:140 | the mean is the value that, taken once per sample, adds up to the sum of the samples |
| CalibrationSession.MeanBetween | blind_aid_yolov10.py:140 | the mean of the samples lies between the smallest and the largest sample |
| CalibrationSession.Commit | blind_aid_yolov10.py:136-142 | with no samples the outcome is "cancelled" and K is unchanged; otherwise K becomes the mean of the samples, which lies between their minimum and maximum |
| CalibrationSession.TwoSamples | blind_aid_yolov10.py:140-141 | two samples `d1*h1`, `d2*h2` give `K = (d1*h1 + d2*h2) / 2` |
| CalibrationSession.SpeakPrompts | blind_aid_yolov10.py:101-126 | the prompt after each capture goes through the throttle, at most one playback per capture, and every playback is one press's own prompt ("No object detected", "Move object to center" or "Enter distance…") at that press's time |
| CalibrationSession.SpeakPromptsAppend | blind_aid_yolov10.py:101-126 | each further press speaks its own prompt through the throttle the earlier presses left: it is played when the cooldown has passed and playback succeeds, and dropped otherwise |
| CalibrationSession.RunSession | blind_aid_yolov10.py:84-145 | a session is cancelled exactly when no capture succeeded, and then K is unchanged; otherwise K is the mean of `K_values`, which is non-empty, and lies between its smallest and largest entry; its speech is "Calibration mode activated", then the prompts, then "Calibration cancelled" or "Calibration completed" as the outcome says, all through the throttle |
| Voice.Lower | blind_aid_yolov10.py:169 | lower-casing keeps the length and leaves no upper-case letter A to Z |
| Voice.LowerIdempotent | blind_aid_yolov10.py:169 | lower-casing twice is lower-casing once |
| Voice.Contains | blind_aid_yolov10.py:172-180 | the search answers true exactly when the phrase occurs at some position of the text |
| Voice.Classify | blind_aid_yolov10.py:169-183 | start is chosen iff "start detection" occurs; stop iff it does not but "stop detection" does; calibrate iff neither does but "calibrate" does; otherwise nothing |
| Voice.ClassifyIgnoresCase | blind_aid_yolov10.py:169 | a phrase and its lower-cased form select the same command |
| Voice.CapitalisedStart | blind_aid_yolov10.py:169-172 | "Start Detection" with capitals selects start |
| Voice.StartBeatsStop | blind_aid_yolov10.py:172-176 | a phrase containing both start and stop selects start, the first check |
| Voice.Apply | blind_aid_yolov10.py:172-183 | start switches detection on; stop switches it off; calibrate switches it off and raises the calibration request; nothing else changes |
| Voice.ApplyIdempotent | blind_aid_yolov10.py:172-183 | repeating a command has no further effect |
| Voice.Listen | blind_aid_yolov10.py:164-186 | a failed recognition changes nothing and says nothing; a recognised phrase applies its command; a phrase with no command says nothing; a command is confirmed with its own sentence through the throttle |
| Detection.Detect | blind_aid_yolov10.py:232-252 | one detection per box, in the detector's order, each with its height, centre and estimated distance filled in |
| Detection.TallerIsNoFarther | blind_aid_yolov10.py:234-251 | with a non-negative scale, of two detections the taller box never has the larger distance |
| Detection.NearestFrom | blind_aid_yolov10.py:250-256 | from any point of the scan, the result is none iff every distance is at least 999999; otherwise it is the minimum distance, first on ties |
| Detection.Nearest | blind_aid_yolov10.py:246-256 | none exactly when there are no detections or all are at least 999999 cm; otherwise the index of a minimum distance below 999999, the earliest on ties |
| Detection.NearestUnique | blind_aid_yolov10.py:254-256 | the nearest detection, first on ties, is unique |
| Detection.NearestOfThree | blind_aid_yolov10.py:246-256 | distances 300, 150, 450 select the second detection |
| Detection.PositionOf | blind_aid_yolov10.py:264-269 | left iff `cx < w/3`; right iff not left and `cx > 2w/3`; ahead iff `w/3 <= cx <= 2w/3` |
| Detection.PositionBands | blind_aid_yolov10.py:264-269 | for a frame of non-negative width, right iff `cx > 2w/3`, and a centre exactly on either band edge is ahead |
| Detection.MessageReadsBack | blind_aid_yolov10.py:271 | the sentence starts with the label and a space, the number that follows reads back as the distance, and it ends with " centimeters " and the position word |
| Detection.Announcement | blind_aid_yolov10.py:259-271 | a sentence is produced iff a nearest detection exists within 500 cm, and it is that detection's sentence |
| Detection.AnnouncedIffSomethingClose | blind_aid_yolov10.py:247-259 | a frame is announced iff some detection is within 500 cm |
| Detection.TallBoxUncalibratedIsSilent | blind_aid_yolov10.py:75-78 | uncalibrated, a box 100 pixels high is 1188 cm away and is not announced |
| MainLoop.CalibrationPlays | blind_aid_yolov10.py:213-215 | a pending calibration request is served before the frame, and its speech is a run of the throttle |
| MainLoop.Step | blind_aid_yolov10.py:204-281 | a failed read changes nothing; after a frame, no calibration request is pending and K is the session's if one was pending; `q` exits; an announcement comes only while detection is active and is the frame's nearest-object sentence; what is played is the calibration's speech followed by the shutdown sentence on `q`, by the announcement when there is one, and by nothing otherwise; all speech is throttled |
| MainLoop.Startup | blind_aid_yolov10.py:150-213 | the program starts with detection off, the loaded K, a calibration pending exactly when a `DO_CALIBRATE` file is already on disk, and plays exactly what `speak("System ready")` plays from the initial throttle |
| MainLoop.Run | blind_aid_yolov10.py:164-226 | a run of listener and main-loop passes is one run of the throttle; a calibration request pending at the end was pending at the start or raised by a recognised phrase that selects "calibrate" |
| MainLoop.RunPlaysApart | blind_aid_yolov10.py:44-53 | over a whole run, including calibration prompts and listener confirmations, no playback starts within 2.0 s of the end of an earlier one |
| MainLoop.CalibrateThenFrame | blind_aid_yolov10.py:180-215 | saying "calibrate" and then delivering a frame runs the calibration session, leaves detection off and announces nothing |
| Geometry.PositiveAreaHasPositiveHeight | blind_aid_yolov10.py:115-118 | a box with corners in order and positive area has a positive height |

## Left out

- Camera capture, YOLO inference, OpenCV windows and drawing, and key
  handling (blind_aid_yolov10.py:91-99, 196-197, 205-207, 217-229,
  273-287) are foreign library calls. A frame is modelled as its capture
  flag, width, key and labelled boxes. After a calibration session, the
  program runs detection on the frame it read before calibrating; the
  modelled boxes are whatever that frame yields.
- Reading and writing `calibration.json` (blind_aid_yolov10.py:60-70, 142)
  and the `DO_CALIBRATE` file (blind_aid_yolov10.py:183, 213-214) are file
  I/O. They become the in-memory `Option<real>` K and the `calibPending`
  flag. The file outlives the process, so `Startup` takes whether it is
  already on disk as a parameter.
- Detection.Detect: requires every box height `y2 - y1` to differ from -1.
  With a height of -1 the program divides by zero, raises
  `ZeroDivisionError` and ends the program. The detector's boxes come
  through `int()` of corners with `y1 <= y2`, so the height is never
  negative and this does not arise.
- Parsing the operator's typed distance with `float(input())`
  (blind_aid_yolov10.py:128) is not modelled: the distance is a given real.
  Input that does not parse raises and ends the program.
- Floating point is not modelled. K, the samples and their mean are exact
  reals. With the fallback K the quotient is an integer division, where
  double rounding cannot change the truncated result for these magnitudes.
  The centre comparisons are exact over half-pixels.
- The listener thread and its unsynchronised shared globals
  (blind_aid_yolov10.py:150-200), and two threads speaking at once, are not
  modelled. Each listener pass and each main-loop pass is one atomic event,
  and the passes run in a single sequence. After the main loop exits, the
  run ignores further events.
- Microphone set-up, ambient-noise adjustment and recognition
  (blind_aid_yolov10.py:156-169) are foreign calls. A failed recognition or
  any exception is a recognition of `None`.
- Voice.Lower: lower-cases only the letters A to Z, where Python's
  `lower()` is Unicode-wide. No non-ASCII character lowers to text that
  creates or breaks a match of the three ASCII command phrases, so the
  command chosen is the same.
- Speech.Speak: the clock, `time.sleep(0.3)` and the speech engine are
  parameters. Each call is given the clock on entry and the clock after
  playback. It requires the second to be at least 0.3 s after the first,
  which holds for a clock that does not go backwards; wall-clock jumps are
  not modelled.
- Console `print` output and the engine set-up (blind_aid_yolov10.py:32-36,
  49, 125, 145, 170) are not modelled.
- The calibration loop's unreadable frames and keys other than `c` and `q`
  (blind_aid_yolov10.py:91-99) change nothing, so they are not events of
  a session.

=== FILE: calibration.dfy ===
/** `calibrate_interactive`: capture the largest centred box on request, pair
    its pixel height with the distance the operator types, and on exit store
    the mean of the products as the new scale K, or keep K when nothing was
    captured. Frames, the detector and the keyboard are outside the model: a
    session is the sequence of capture requests (presses of `c`) up to the
    press of `q`, each carrying the boxes detected in its frame. */
module Calibration {
  import opened Wrappers
  import opened Geometry
  import opened Speech

  /** `abs(cx - w/2) < w * 0.25` with `cx = (x1 + x2) / 2`, multiplied by four. */
  predicate InCentreQuarter(b: Box, w: int) {
    2 * Abs(b.CentreTwice() - w) < w
  }

  /** The integer test is `calibrate_interactive`'s comparison over the reals. */
  lemma CentreQuarterIsRealTest(b: Box, w: int)
    ensures InCentreQuarter(b, w) <==> RealAbs(b.CentreX() - w as real / 2.0) < w as real * 0.25
  {
    var c := (b.CentreTwice() - w) as real;
    assert b.CentreX() - w as real / 2.0 == c / 2.0;
  }

  /** A box that can win the capture: centred, with an area above the
      starting `best_area` of 0. */
  predicate Eligible(b: Box, w: int) {
    InCentreQuarter(b, w) && b.Area() > 0
  }

  /** Among the first `n` boxes, box `i` is the one the capture loop keeps:
      eligible, no centred box has a larger area, and every earlier centred
      box has a strictly smaller one. */
  ghost predicate LargestCentredAmong(boxes: seq<Box>, w: int, n: int, i: int)
    requires n <= |boxes|
  {
    && 0 <= i < n
    && Eligible(boxes[i], w)
    && (forall j :: 0 <= j < n && InCentreQuarter(boxes[j], w) ==> boxes[j].Area() <= boxes[i].Area())
    && (forall j :: 0 <= j < i && InCentreQuarter(boxes[j], w) ==> boxes[j].Area() < boxes[i].Area())
  }

  ghost predicate IsLargestCentred(boxes: seq<Box>, w: int, i: int) {
    LargestCentredAmong(boxes, w, |boxes|, i)
  }

  /** At most one box is the largest centred one. */
  lemma LargestCentredUnique(boxes: seq<Box>, w: int, i: int, j: int)
    requires IsLargestCentred(boxes, w, i) && IsLargestCentred(boxes, w, j)
    ensures i == j
  {
  }

  /** The loop over `results.boxes` from position `i`, having kept `chosen`
      with area `bestArea` among the boxes before `i`. */
  function ScanFrom(boxes: seq<Box>, w: int, i: nat, chosen: Option<nat>, bestArea: int): (r: Option<nat>)
    requires i <= |boxes|
    requires ScanInvariant(boxes, w, i, chosen, bestArea)
    ensures r.None? <==> forall j :: 0 <= j < |boxes| ==> !Eligible(boxes[j], w)
    ensures r.Some? ==> IsLargestCentred(boxes, w, r.value)
    decreases |boxes| - i
  {
    if i == |boxes| then
      chosen
    else
      var b := boxes[i];
      if InCentreQuarter(b, w) && b.Area() > bestArea then
        ScanTakes(boxes, w, i, chosen, bestArea);
        ScanFrom(boxes, w, i + 1, Some(i), b.Area())
      else
        ScanKeeps(boxes, w, i, chosen, bestArea);
        ScanFrom(boxes, w, i + 1, chosen, bestArea)
  }

  /** What the loop knows after the first `i` boxes: with nothing kept, no
      box so far was eligible; otherwise the kept box is the largest centred
      one so far and `bestArea` is its area. */
  ghost predicate ScanInvariant(boxes: seq<Box>, w: int, i: nat, chosen: Option<nat>, bestArea: int)
    requires i <= |boxes|
  {
    && (chosen.None? ==> bestArea == 0 && forall j :: 0 <= j < i ==> !Eligible(boxes[j], w))
    && (chosen.Some? ==> LargestCentredAmong(boxes, w, i, chosen.value) && bestArea == boxes[chosen.value].Area())
  }

  lemma ScanTakes(boxes: seq<Box>, w: int, i: nat, chosen: Option<nat>, bestArea: int)
    requires i < |boxes| && ScanInvariant(boxes, w, i, chosen, bestArea)
    requires InCentreQuarter(boxes[i], w) && boxes[i].Area() > bestArea
    ensures ScanInvariant(boxes, w, i + 1, Some(i), boxes[i].Area())
  {
    forall j | 0 <= j < i && InCentreQuarter(boxes[j], w)
      ensures boxes[j].Area() < boxes[i].Area()
    {
      if chosen.None? {
        assert !Eligible(boxes[j], w);
      }
    }
  }

  lemma ScanKeeps(boxes: seq<Box>, w: int, i: nat, chosen: Option<nat>, bestArea: int)
    requires i < |boxes| && ScanInvariant(boxes, w, i, chosen, bestArea)
    requires !(InCentreQuarter(boxes[i], w) && boxes[i].Area() > bestArea)
    ensures ScanInvariant(boxes, w, i + 1, chosen, bestArea)
  {
  }

  /** Index of the box whose height is captured, if any box is eligible. */
  function SelectCapture(boxes: seq<Box>, w: int): (r: Option<nat>)
    ensures r.None? <==> forall j :: 0 <= j < |boxes| ==> !Eligible(boxes[j], w)
    ensures r.Some? ==> IsLargestCentred(boxes, w, r.value)
  {
    ScanFrom(boxes, w, 0, None, 0)
  }

  /** What one press of `c` leads to. */
  datatype CaptureOutcome = NoObject | NotCentred | Captured(height: int)

  function Capture(boxes: seq<Box>, w: int): (o: CaptureOutcome)
    ensures o.NoObject? <==> boxes == []
    ensures o.NotCentred? <==> boxes != [] && forall j :: 0 <= j < |boxes| ==> !Eligible(boxes[j], w)
    ensures o.Captured? ==> SelectCapture(boxes, w).Some? && IsLargestCentred(boxes, w, SelectCapture(boxes, w).value) && o.height == boxes[SelectCapture(boxes, w).value].Height()
  {
    if |boxes| == 0 then NoObject
    else match SelectCapture(boxes, w)
      case None => NotCentred
      case Some(i) => Captured(boxes[i].Height())
  }

  /** A press captures exactly when some box is the largest centred one, and
      the captured height is that box's height. */
  lemma CapturedIffLargestCentred(boxes: seq<Box>, w: int)
    ensures Capture(boxes, w).Captured? <==>
              exists i :: IsLargestCentred(boxes, w, i) && Capture(boxes, w).height == boxes[i].Height()
  {
  }

  /** The sentence spoken after a press of `c`. */
  function Prompt(o: CaptureOutcome): string {
    match o
    case NoObject => "No object detected"
    case NotCentred => "Move object to center"
    case Captured(_) => "Enter distance in centimeters in the terminal"
  }

  /** With the detector's corners in order, the captured height is positive,
      so a sample has the sign of the distance the operator typed. */
  lemma CapturedHeightPositive(boxes: seq<Box>, w: int)
    requires forall i :: 0 <= i < |boxes| ==> boxes[i].WellFormed()
    ensures Capture(boxes, w).Captured? ==> Capture(boxes, w).height > 0
  {
    var r := SelectCapture(boxes, w);
    if r.Some? {
      var b := boxes[r.value];
      assert b.WellFormed() && b.Area() > 0;
      PositiveAreaHasPositiveHeight(b);
    }
  }
}

=== FILE: decimal.dfy ===
/** Python's `str` of an integer (the `{dist}` in an f-string) and a reader
    that takes such text back to the integer it came from. */
module Decimal {

  predicate IsDigit(c: char) {
    '0' <= c <= '9'
  }

  function DigitChar(d: int): (c: char)
    requires 0 <= d < 10
    ensures IsDigit(c)
  {
    ('0' as int + d) as char
  }

  function DigitValue(c: char): (d: int)
    requires IsDigit(c)
    ensures 0 <= d < 10
  {
    c as int - '0' as int
  }

  lemma DigitValueOfChar(d: int)
    requires 0 <= d < 10
    ensures DigitValue(DigitChar(d)) == d
  {
  }

  /** Decimal digits of `n`, most significant first, without leading zeros. */
  function NatToString(n: nat): (s: string)
    ensures |s| >= 1
    ensures forall i :: 0 <= i < |s| ==> IsDigit(s[i])
    ensures |s| > 1 ==> s[0] != '0'
    decreases n
  {
    if n < 10 then [DigitChar(n)]
    else NatToString(n / 10) + [DigitChar(n % 10)]
  }

  /** `str(n)`: a minus sign followed by the digits of `-n` for negative `n`. */
  function IntToString(n: int): (s: string)
    ensures |s| >= 1
    ensures s[0] == '-' <==> n < 0
  {
    if n < 0 then "-" + NatToString(-n) else NatToString(n)
  }

  predicate AllDigits(s: string) {
    forall i :: 0 <= i < |s| ==> IsDigit(s[i])
  }

  /** Value of a string of decimal digits, read most significant first. */
  function ParseNat(s: string): nat
    requires AllDigits(s)
    decreases |s|
  {
    if s == [] then 0
    else ParseNat(s[..|s| - 1]) * 10 + DigitValue(s[|s| - 1])
  }

  /** Reader for the text `IntToString` produces: an optional minus sign and digits. */
  function ParseInt(s: string): int
    requires s != [] && (s[0] == '-' ==> AllDigits(s[1..])) && (s[0] != '-' ==> AllDigits(s))
  {
    if s[0] == '-' then -(ParseNat(s[1..]) as int) else ParseNat(s)
  }

  lemma {:induction false} ParseNatToString(n: nat)
    ensures ParseNat(NatToString(n)) == n
    decreases n
  {
    var s := NatToString(n);
    if n < 10 {
      DigitValueOfChar(n);
      assert s[..|s| - 1] == [];
    } else {
      ParseNatToString(n / 10);
      DigitValueOfChar(n % 10);
      assert s[..|s| - 1] == NatToString(n / 10);
    }
  }

  /** Reading back the text of an integer gives the integer. */
  lemma IntToStringRoundTrip(n: int)
    ensures ParseInt(IntToString(n)) == n
  {
    var s := IntToString(n);
    if n < 0 {
      assert s[1..] == NatToString(-n);
      ParseNatToString(-n);
    } else {
      ParseNatToString(n);
    }
  }
}

=== FILE: detection.dfy ===
/** The detection half of `main`'s loop body: a distance for every detected
    box, the nearest of them by a strict-`<` scan from the sentinel 999999,
    and the spoken sentence for it when it is within 500 cm, placed left,
    ahead or right by the middle third of the frame. */
module Detection {
  import opened Wrappers
  import opened Geometry
  import opened Distance
  import opened Decimal

  /** Starting value of `min_dist`. */
  const Sentinel: int := 999999

  /** `MIN_SPEAK_DISTANCE_CM`: only objects this close or closer are announced. */
  const AlertCm: int := 500

  /** A detector box with its class name. */
  datatype LabelledBox = LabelledBox(box: Box, className: string)

  /** One entry of `detections` once its `dist` has been filled in. */
  datatype Detection = Detection(box: Box, className: string, height: int, centreTwice: int, dist: int)

  /** No box is exactly one pixel short of zero height, the one height for
      which the estimate divides by zero. */
  predicate Estimable(boxes: seq<LabelledBox>) {
    forall i :: 0 <= i < |boxes| ==> boxes[i].box.Height() + 1 != 0
  }

  /** `detections`, in the detector's order, each with its distance. */
  function Detect(boxes: seq<LabelledBox>, k: Option<real>): (r: seq<Detection>)
    requires Estimable(boxes)
    ensures |r| == |boxes|
    ensures forall i :: 0 <= i < |r| ==>
      && r[i].box == boxes[i].box && r[i].className == boxes[i].className
      && r[i].height == boxes[i].box.Height() && r[i].centreTwice == boxes[i].box.CentreTwice()
      && r[i].dist == EstimateDistanceCm(boxes[i].box.Height(), k)
  {
    seq(|boxes|, i requires 0 <= i < |boxes| =>
      var b := boxes[i].box;
      Detection(b, boxes[i].className, b.Height(), b.CentreTwice(), EstimateDistanceCm(b.Height(), k)))
  }

  /** With a non-negative scale and boxes in corner order, a taller box never
      gets a larger distance than a shorter one. */
  lemma TallerIsNoFarther(boxes: seq<LabelledBox>, k: Option<real>, i: int, j: int)
    requires Estimable(boxes) && ScaleOf(k) >= 0.0
    requires 0 <= i < |boxes| && 0 <= j < |boxes|
    requires 0 <= boxes[i].box.Height() <= boxes[j].box.Height()
    ensures 0 <= Detect(boxes, k)[j].dist <= Detect(boxes, k)[i].dist
  {
    EstimateNonIncreasing(boxes[i].box.Height(), boxes[j].box.Height(), k);
  }

  /** Among the first `n` detections, `i` is the one the scan keeps: below
      the sentinel, no farther than any other, and strictly nearer than every
      earlier one. */
  ghost predicate NearestAmong(dets: seq<Detection>, n: int, i: int)
    requires n <= |dets|
  {
    && 0 <= i < n
    && dets[i].dist < Sentinel
    && (forall j :: 0 <= j < n ==> dets[i].dist <= dets[j].dist)
    && (forall j :: 0 <= j < i ==> dets[i].dist < dets[j].dist)
  }

  ghost predicate IsNearest(dets: seq<Detection>, i: int) {
    NearestAmong(dets, |dets|, i)
  }

  lemma NearestUnique(dets: seq<Detection>, i: int, j: int)
    requires IsNearest(dets, i) && IsNearest(dets, j)
    ensures i == j
  {
  }

  /** What the loop knows after the first `i` detections. */
  ghost predicate NearestInvariant(dets: seq<Detection>, i: nat, minDist: int, nearest: Option<nat>)
    requires i <= |dets|
  {
    && (nearest.None? ==> minDist == Sentinel && forall j :: 0 <= j < i ==> dets[j].dist >= Sentinel)
    && (nearest.Some? ==> NearestAmong(dets, i, nearest.value) && minDist == dets[nearest.value].dist)
  }

  /** The loop `for d in detections: if dist < min_dist: ...` from position `i`. */
  function NearestFrom(dets: seq<Detection>, i: nat, minDist: int, nearest: Option<nat>): (r: Option<nat>)
    requires i <= |dets| && NearestInvariant(dets, i, minDist, nearest)
    ensures r.None? <==> forall j :: 0 <= j < |dets| ==> dets[j].dist >= Sentinel
    ensures r.Some? ==> IsNearest(dets, r.value)
    decreases |dets| - i
  {
    if i == |dets| then nearest
    else if dets[i].dist < minDist then
      NearestTakes(dets, i, minDist, nearest);
      NearestFrom(dets, i + 1, dets[i].dist, Some(i))
    else
      NearestFrom(dets, i + 1, minDist, nearest)
  }

  lemma NearestTakes(dets: seq<Detection>, i: nat, minDist: int, nearest: Option<nat>)
    requires i < |dets| && NearestInvariant(dets, i, minDist, nearest)
    requires dets[i].dist < minDist
    ensures NearestInvariant(dets, i + 1, dets[i].dist, Some(i))
  {
  }

  /** Index of the nearest detection, or none when every distance is at
      least the sentinel (in particular when nothing was detected). */
  function Nearest(dets: seq<Detection>): (r: Option<nat>)
    ensures r.None? <==> forall j :: 0 <= j < |dets| ==> dets[j].dist >= Sentinel
    ensures r.Some? ==> IsNearest(dets, r.value)
  {
    NearestFrom(dets, 0, Sentinel, None)
  }

  /** Distances 300, 150 and 450 select the second detection. */
  lemma NearestOfThree(a: Detection, b: Detection, c: Detection)
    requires a.dist == 300 && b.dist == 150 && c.dist == 450
    ensures Nearest([a, b, c]) == Some(1)
  {
    var s := [a, b, c];
    assert s[1].dist < Sentinel;
    var i := Nearest(s).value;
    assert s[i].dist <= s[1].dist;
    assert i == 1;
  }

  datatype Position = Left | Ahead | Right

  /** Placement of a centre `cx = centreTwice / 2` in a frame `w` wide:
      left of `w/3`, else right of `2w/3`, else ahead. */
  function PositionOf(centreTwice: int, w: int): (p: Position)
    ensures p.Left? <==> centreTwice as real / 2.0 < w as real / 3.0
    ensures p.Right? <==> !(centreTwice as real / 2.0 < w as real / 3.0) && centreTwice as real / 2.0 > 2.0 * w as real / 3.0
    ensures p.Ahead? <==> w as real / 3.0 <= centreTwice as real / 2.0 <= 2.0 * w as real / 3.0
  {
    if 3 * centreTwice < 2 * w then Left
    else if 3 * centreTwice > 4 * w then Right
    else Ahead
  }

  /** For a frame of non-negative width, each band is the plain interval,
      and the two band edges themselves count as ahead. */
  lemma PositionBands(centreTwice: int, w: int)
    requires w >= 0
    ensures PositionOf(centreTwice, w).Right? <==> centreTwice as real / 2.0 > 2.0 * w as real / 3.0
    ensures 3 * centreTwice == 2 * w ==> PositionOf(centreTwice, w).Ahead?
    ensures 3 * centreTwice == 4 * w ==> PositionOf(centreTwice, w).Ahead?
  {
  }

  function PositionWord(p: Position): string {
    match p
    case Left => "left"
    case Ahead => "ahead"
    case Right => "right"
  }

  /** `f"{label} {dist} centimeters {pos}"`. */
  function Message(d: Detection, w: int): string {
    d.className + " " + IntToString(d.dist) + " centimeters " + PositionWord(PositionOf(d.centreTwice, w))
  }

  /** The sentence can be taken apart again: it opens with the class name, the
      number after the first space reads back as the distance, and it closes
      with the unit and the position word. */
  lemma MessageReadsBack(d: Detection, w: int)
    ensures var m := Message(d, w);
      var n := |d.className| + 1 + |IntToString(d.dist)|;
      var tail := " centimeters " + PositionWord(PositionOf(d.centreTwice, w));
      && |m| == n + |tail|
      && m[..|d.className|] == d.className && m[|d.className|] == ' '
      && m[n..] == tail
      && ParseInt(m[|d.className| + 1..n]) == d.dist
  {
    var m := Message(d, w);
    var digits := IntToString(d.dist);
    var n := |d.className| + 1 + |digits|;
    assert m[|d.className| + 1..n] == digits;
    IntToStringRoundTrip(d.dist);
  }

  /** The sentence to speak for this frame, if any: only for a nearest
      detection within `AlertCm`. */
  function Announcement(dets: seq<Detection>, w: int): (r: Option<string>)
    ensures r.Some? <==> Nearest(dets).Some? && dets[Nearest(dets).value].dist <= AlertCm
    ensures r.Some? ==> r.value == Message(dets[Nearest(dets).value], w)
  {
    match Nearest(dets)
    case None => None
    case Some(i) => if dets[i].dist <= AlertCm then Some(Message(dets[i], w)) else None
  }

  /** A frame is announced exactly when some detection is within the alert
      distance, and then it is the nearest detection that is named. */
  lemma AnnouncedIffSomethingClose(dets: seq<Detection>, w: int)
    ensures Announcement(dets, w).Some? <==> exists j :: 0 <= j < |dets| && dets[j].dist <= AlertCm
  {
    if j :| 0 <= j < |dets| && dets[j].dist <= AlertCm {
      assert dets[j].dist < Sentinel;
      var i := Nearest(dets).value;
      assert dets[i].dist <= dets[j].dist;
    }
  }

  /** Uncalibrated, a single box 100 pixels high is 1188 cm away, beyond the
      alert distance, so nothing is said. */
  lemma TallBoxUncalibratedIsSilent(className: string, x1: int, y1: int, x2: int, w: int)
    ensures var boxes := [LabelledBox(Box(x1, y1, x2, y1 + 100), className)];
      Detect(boxes, None)[0].dist == 1188 && Announcement(Detect(boxes, None), w).None?
  {
    FallbackIsIntegerDivision(100);
    var dets := Detect([LabelledBox(Box(x1, y1, x2, y1 + 100), className)], None);
    AnnouncedIffSomethingClose(dets, w);
  }
}

=== FILE: distance.dfy ===
/** The pinhole distance heuristic `estimate_distance_cm`: distance is the
    scale constant K divided by the box's pixel height plus one, truncated to
    whole centimetres. */
module Distance {
  import opened Wrappers

  /** Scale used while no calibration has been stored. */
  const FallbackK: nat := 120000

  /** Python's `int()` applied to a float: truncation toward zero. */
  function Trunc(x: real): (r: int)
    ensures x >= 0.0 ==> r >= 0 && r as real <= x < r as real + 1.0
    ensures x < 0.0 ==> r <= 0 && r as real - 1.0 < x <= r as real
  {
    if x >= 0.0 then x.Floor else -((-x).Floor)
  }

  /** The scale in force: the stored K, or the fallback while K is unset. */
  function ScaleOf(k: Option<real>): real {
    k.GetOr(FallbackK as real)
  }

  /** Estimated distance in centimetres for a box `h` pixels high. The program
      divides by `h + 1`, so `h == -1` is the one height it cannot handle. */
  function EstimateDistanceCm(h: int, k: Option<real>): int
    requires h + 1 != 0
  {
    Trunc(ScaleOf(k) / (h + 1) as real)
  }

  /** Floor of a quotient of non-negative integers taken over the reals is
      integer division. */
  lemma FloorOfQuotient(a: nat, b: nat)
    requires b > 0
    ensures (a as real / b as real).Floor == a / b
  {
    var q, r := a / b, a % b;
    assert a == q * b + r;
    assert a as real / b as real == q as real + r as real / b as real by {
      assert a as real == q as real * b as real + r as real;
    }
    assert 0.0 <= r as real / b as real < 1.0;
  }

  /** Uncalibrated, the estimate is integer division of the fallback scale. */
  lemma FallbackIsIntegerDivision(h: int)
    requires h >= 0
    ensures EstimateDistanceCm(h, None) == FallbackK / (h + 1)
  {
    FloorOfQuotient(FallbackK, h + 1);
  }

  /** Calibrated with a non-negative K, the estimate is the whole number d of
      centimetres with d * (h + 1) <= K < (d + 1) * (h + 1): distance times
      apparent size recovers the scale. */
  lemma CalibratedBracketsScale(h: int, k: real)
    requires h >= 0 && k >= 0.0
    ensures EstimateDistanceCm(h, Some(k)) >= 0
    ensures EstimateDistanceCm(h, Some(k)) == (k / (h + 1) as real).Floor
    ensures EstimateDistanceCm(h, Some(k)) as real * (h + 1) as real <= k
    ensures k < (EstimateDistanceCm(h, Some(k)) + 1) as real * (h + 1) as real
  {
    var n := (h + 1) as real;
    var q := k / n;
    var d := EstimateDistanceCm(h, Some(k));
    QuotientAntitone(k, n, n);
    assert d as real <= q < d as real + 1.0;
    assert q * n == k;
    MulMonotone(d as real, q, n);
    var up := (d + 1) as real;
    assert up == d as real + 1.0;
    MulStrictMonotone(q, up, n);
    assert k < up * n;
  }

  lemma MulMonotone(a: real, b: real, n: real)
    requires a <= b && n >= 0.0
    ensures a * n <= b * n
  {
  }

  lemma MulStrictMonotone(a: real, b: real, n: real)
    requires a < b && n > 0.0
    ensures a * n < b * n
  {
  }

  /** A larger box never reads as farther away. */
  lemma {:induction false} EstimateNonIncreasing(h1: int, h2: int, k: Option<real>)
    requires 0 <= h1 <= h2
    requires ScaleOf(k) >= 0.0
    ensures 0 <= EstimateDistanceCm(h2, k) <= EstimateDistanceCm(h1, k)
  {
    var s := ScaleOf(k);
    var n1, n2 := (h1 + 1) as real, (h2 + 1) as real;
    QuotientAntitone(s, n1, n2);
  }

  lemma QuotientAntitone(s: real, n1: real, n2: real)
    requires s >= 0.0 && 0.0 < n1 <= n2
    ensures 0.0 <= s / n2 <= s / n1
  {
    var q1, q2 := s / n1, s / n2;
    assert q1 * n1 == s && q2 * n2 == s;
    if q2 < 0.0 {
      MulStrictMonotone(q2, 0.0, n2);
      assert false;
    }
    if q2 > q1 {
      MulStrictMonotone(q1, q2, n1);
      MulMonotone(n1, n2, q2);
      assert false;
    }
  }
}

=== FILE: geometry.dfy ===
/** Bounding boxes as the detector reports them after `map(int, box.xyxy[0])`. */
module Geometry {

  function Abs(x: int): (r: nat)
    ensures r == x || r == -x
  {
    if x < 0 then -x else x
  }

  function RealAbs(x: real): (r: real)
    ensures r >= 0.0 && (r == x || r == -x)
  {
    if x < 0.0 then -x else x
  }

  /** Corner coordinates in whole pixels: (x1, y1) top-left, (x2, y2) bottom-right. */
  datatype Box = Box(x1: int, y1: int, x2: int, y2: int) {

    /** Pixel height `y2 - y1`, the input of the distance estimate. */
    function Height(): int {
      y2 - y1
    }

    function Area(): int {
      (x2 - x1) * (y2 - y1)
    }

    /** `x1 + x2`, twice the horizontal centre; integral where the centre is a half-pixel. */
    function CentreTwice(): int {
      x1 + x2
    }

    /** The horizontal centre `(x1 + x2) / 2` as the program computes it. */
    function CentreX(): real {
      (x1 + x2) as real / 2.0
    }

    /** Corners in the detector's order. */
    predicate WellFormed() {
      x1 <= x2 && y1 <= y2
    }
  }

  /** For a box whose corners are in order, a positive area means a positive height. */
  lemma PositiveAreaHasPositiveHeight(b: Box)
    requires b.WellFormed()
    requires b.Area() > 0
    ensures b.Height() > 0
  {
  }
}

=== FILE: mainloop.dfy ===
/** `main`'s loop, one captured frame at a time, interleaved with passes of
    the voice listener. The camera, the detector, the keyboard and the
    listener thread are outside the model: a frame is what they delivered for
    that pass of the loop, and the two threads' steps are taken one after
    another in a single sequence of events. */
module MainLoop {
  import opened Wrappers
  import opened Speech
  import opened Calibration
  import opened CalibrationSession
  import opened Voice
  import opened Detection

  /** The process-wide state the loop reads and writes: the shared flags, the
      stored scale K, and the speech throttle. */
  datatype LoopState = LoopState(control: Control, k: Option<real>, throttle: Throttle)

  /** One pass of the loop body: whether `cap.read()` delivered a frame, its
      width, the calibration session that would run if one is requested, whether
      `q` was pressed, the labelled boxes the detector finds, and the world
      during the announcement and during the shutdown message. */
  datatype FrameInput = FrameInput(
    captured: bool,
    width: int,
    calibration: Session,
    quitKey: bool,
    boxes: seq<LabelledBox>,
    announce: SpeakCall,
    shutdown: SpeakCall)

  predicate FrameWellFormed(f: FrameInput) {
    && SessionWellTimed(f.calibration)
    && WellTimed(f.announce) && WellTimed(f.shutdown)
    && Estimable(f.boxes)
  }

  /** The state after one pass, whether the loop exited, what was played, and
      the sentence the frame called for (played or dropped by the throttle). */
  datatype StepResult = StepResult(state: LoopState, quit: bool, plays: seq<Play>, announced: Option<string>)

  /** A pending calibration request, consumed and run to completion. */
  function ServeCalibration(s: LoopState, session: Session): (r: LoopState)
    requires SessionWellTimed(session)
  {
    if s.control.calibPending then
      var c := RunSession(s.throttle, s.k, session);
      LoopState(s.control.(calibPending := false), c.k, c.speech.throttle)
    else s
  }

  function CalibrationPlays(s: LoopState, session: Session): (p: seq<Play>)
    requires SessionWellTimed(session)
    ensures Follows(s.throttle, Spoken(ServeCalibration(s, session).throttle, p))
  {
    if s.control.calibPending then RunSession(s.throttle, s.k, session).speech.plays else []
  }

  /** One pass of `while True`. */
  function Step(s: LoopState, f: FrameInput): (r: StepResult)
    requires FrameWellFormed(f)
    ensures Follows(s.throttle, Spoken(r.state.throttle, r.plays))
    ensures !f.captured ==> r == StepResult(s, false, [], None)
    ensures f.captured ==> !r.state.control.calibPending
    ensures r.state.control.active == s.control.active
    ensures r.quit <==> f.captured && f.quitKey
    ensures !s.control.calibPending ==> r.state.k == s.k
    ensures f.captured && s.control.calibPending ==> r.state.k == RunSession(s.throttle, s.k, f.calibration).k
    ensures r.announced.Some? ==> f.captured && !f.quitKey && s.control.active
    ensures f.captured && !f.quitKey && s.control.active ==>
      r.announced == Announcement(Detect(f.boxes, r.state.k), f.width)
    ensures f.captured ==> CalibrationPlays(s, f.calibration) <= r.plays
    ensures f.captured && f.quitKey ==>
      r.plays == CalibrationPlays(s, f.calibration)
                 + Speak(ServeCalibration(s, f.calibration).throttle, "System shutting down", f.shutdown).plays
    ensures f.captured && !f.quitKey && r.announced.None? ==> r.plays == CalibrationPlays(s, f.calibration)
    ensures r.announced.Some? ==>
      r.plays == CalibrationPlays(s, f.calibration)
                 + Speak(ServeCalibration(s, f.calibration).throttle, r.announced.value, f.announce).plays
  {
    if !f.captured then StepResult(s, false, [], None)
    else
      var s1 := ServeCalibration(s, f.calibration);
      var cal := Spoken(s1.throttle, CalibrationPlays(s, f.calibration));
      if f.quitKey then
        var bye := Speak(s1.throttle, "System shutting down", f.shutdown);
        FollowsThen(s.throttle, cal, bye);
        StepResult(s1.(throttle := bye.throttle), true, cal.plays + bye.plays, None)
      else if !s1.control.active then
        StepResult(s1, false, cal.plays, None)
      else
        var msg := Announcement(Detect(f.boxes, s1.k), f.width);
        match msg
        case None => StepResult(s1, false, cal.plays, None)
        case Some(text) =>
          var said := Speak(s1.throttle, text, f.announce);
          FollowsThen(s.throttle, cal, said);
          StepResult(s1.(throttle := said.throttle), false, cal.plays + said.plays, msg)
  }

  /** Something that happens while the program runs: the listener starting
      up, a pass of the listener loop, or a pass of the main loop. */
  datatype Event =
    | ListenerReady(greeting: SpeakCall)
    | Recognised(text: Option<string>, confirm: SpeakCall)
    | Frame(frame: FrameInput)

  predicate EventWellFormed(e: Event) {
    match e
    case ListenerReady(c) => WellTimed(c)
    case Recognised(_, c) => WellTimed(c)
    case Frame(f) => FrameWellFormed(f)
  }

  /** A pass of the listener that heard "calibrate". */
  predicate AsksCalibration(e: Event) {
    e.Recognised? && e.text.Some? && Classify(e.text.value).Calibrate?
  }

  datatype RunResult = RunResult(state: LoopState, quit: bool, plays: seq<Play>)

  /** The state after "System ready" is spoken: detection off, K as loaded,
      and a calibration pending exactly when a `DO_CALIBRATE` file is already
      on disk, left by an earlier run that was stopped before serving it. */
  function Startup(k: Option<real>, leftOver: bool, ready: SpeakCall): (r: RunResult)
    requires WellTimed(ready)
    ensures Follows(Initial, Spoken(r.state.throttle, r.plays))
    ensures r.plays == Speak(Initial, "System ready", ready).plays
    ensures r.state.control == Control(false, leftOver) && r.state.k == k && !r.quit
    ensures !leftOver ==> r.state.control == InitialControl
  {
    var said := Speak(Initial, "System ready", ready);
    RunResult(LoopState(Control(false, leftOver), k, said.throttle), false, said.plays)
  }

  /** Events in order until the loop exits; events after the exit are ignored. */
  function Run(s: LoopState, events: seq<Event>): (r: RunResult)
    requires forall i :: 0 <= i < |events| ==> EventWellFormed(events[i])
    ensures Follows(s.throttle, Spoken(r.state.throttle, r.plays))
    ensures r.state.control.calibPending ==>
      s.control.calibPending || exists i :: 0 <= i < |events| && AsksCalibration(events[i])
    decreases |events|
  {
    if events == [] then RunResult(s, false, [])
    else
      assert EventWellFormed(events[0]);
      var first: StepResult := match events[0]
        case ListenerReady(c) =>
          var said := Speak(s.throttle, "Voice control activated", c);
          StepResult(s.(throttle := said.throttle), false, said.plays, None)
        case Recognised(text, c) =>
          var h := Listen(s.control, s.throttle, text, c);
          StepResult(LoopState(h.control, s.k, h.speech.throttle), false, h.speech.plays, None)
        case Frame(f) => Step(s, f);
      if first.quit then RunResult(first.state, true, first.plays)
      else
        var rest := Run(first.state, events[1..]);
        assert first.state.control.calibPending ==> s.control.calibPending || AsksCalibration(events[0]);
        assert forall i :: 0 <= i < |events| - 1 ==> events[1..][i] == events[i + 1];
        FollowsThen(s.throttle, Spoken(first.state.throttle, first.plays), Spoken(rest.state.throttle, rest.plays));
        RunResult(rest.state, rest.quit, first.plays + rest.plays)
  }

  /** Across a whole run, including calibration prompts and listener
      confirmations, no playback starts less than the cooldown after an
      earlier one finished. */
  lemma RunPlaysApart(s: LoopState, events: seq<Event>, i: int, j: int)
    requires forall e :: 0 <= e < |events| ==> EventWellFormed(events[e])
    requires 0 <= i < j < |Run(s, events).plays|
    ensures Run(s, events).plays[j].start >= Run(s, events).plays[i].finish + Cooldown
  {
    PlaysApart(s.throttle.last, Run(s, events).plays, i, j);
  }

  /** Saying "calibrate" and then delivering a frame runs the calibration
      session before anything else, and leaves detection off. */
  lemma CalibrateThenFrame(s: LoopState, heard: string, c: SpeakCall, f: FrameInput)
    requires WellTimed(c) && FrameWellFormed(f) && f.captured
    requires Classify(heard).Calibrate?
    ensures var h := Listen(s.control, s.throttle, Some(heard), c);
      var r := Step(LoopState(h.control, s.k, h.speech.throttle), f);
      && !r.state.control.active && !r.state.control.calibPending
      && r.announced.None?
      && r.state.k == RunSession(h.speech.throttle, s.k, f.calibration).k
  {
  }
}

=== FILE: session.dfy ===
/** The calibration session around the capture step: the list `K_values` of
    products of typed distance and captured height, its mean, which becomes the
    new scale K, and the prompts spoken along the way. */
module CalibrationSession {
  import opened Wrappers
  import opened Geometry
  import opened Speech
  import opened Calibration

  /** One press of `c`: the boxes found in that frame, the frame width, the
      distance the operator would type if asked, and the world during the
      spoken prompt. */
  datatype CaptureRequest = CaptureRequest(boxes: seq<Box>, frameWidth: int, operatorCm: real, prompt: SpeakCall)

  function OutcomeOf(q: CaptureRequest): CaptureOutcome {
    Capture(q.boxes, q.frameWidth)
  }

  /** The press found a centred box and asked for its distance. */
  predicate Succeeded(q: CaptureRequest) {
    OutcomeOf(q).Captured?
  }

  /** What one press adds to `K_values`: the typed distance times the
      captured height when a box was captured, and nothing otherwise. */
  function CaptureSample(q: CaptureRequest): (s: seq<real>)
    ensures |s| <= 1
    ensures s != [] <==> Succeeded(q)
  {
    if Succeeded(q) then [q.operatorCm * OutcomeOf(q).height as real] else []
  }

  /** Number of presses that captured a box. */
  function Captures(qs: seq<CaptureRequest>): (n: nat)
    ensures n <= |qs|
    decreases |qs|
  {
    if qs == [] then 0 else (if Succeeded(qs[0]) then 1 else 0) + Captures(qs[1..])
  }

  /** `K_values`: one product `distance * height` per captured request, in order. */
  function Samples(qs: seq<CaptureRequest>): (s: seq<real>)
    ensures |s| == Captures(qs)
    decreases |qs|
  {
    if qs == [] then [] else CaptureSample(qs[0]) + Samples(qs[1..])
  }

  /** The list stays empty exactly when no press captured a box. */
  lemma {:induction false} NoSamplesIffNoCapture(qs: seq<CaptureRequest>)
    ensures Samples(qs) == [] <==> forall i :: 0 <= i < |qs| ==> !Succeeded(qs[i])
    decreases |qs|
  {
    if qs != [] {
      var rest := qs[1..];
      assert forall i :: 1 <= i < |qs| ==> rest[i - 1] == qs[i];
      NoSamplesIffNoCapture(rest);
      assert Samples(qs) == CaptureSample(qs[0]) + Samples(rest);
    }
  }

  /** The list grows as `calibrate_interactive`'s loop appends to it: a further press adds
      its sample, if any, at the end. */
  lemma {:induction false} SamplesAppend(qs: seq<CaptureRequest>, q: CaptureRequest)
    ensures Samples(qs + [q]) == Samples(qs) + CaptureSample(q)
    decreases |qs|
  {
    if qs == [] {
      assert [q][1..] == [];
    } else {
      assert (qs + [q])[1..] == qs[1..] + [q];
      SamplesAppend(qs[1..], q);
    }
  }

  /** A press whose frame holds a largest centred box `i` adds exactly the
      typed distance times that box's height. */
  lemma SampleOfLargestCentred(q: CaptureRequest, i: int)
    requires IsLargestCentred(q.boxes, q.frameWidth, i)
    ensures Succeeded(q)
    ensures CaptureSample(q)[0] == q.operatorCm * q.boxes[i].Height() as real
  {
    var o := Capture(q.boxes, q.frameWidth);
    assert q.boxes != [] && Eligible(q.boxes[i], q.frameWidth);
    assert o.Captured?;
    var j :| IsLargestCentred(q.boxes, q.frameWidth, j) && o.height == q.boxes[j].Height();
    LargestCentredUnique(q.boxes, q.frameWidth, i, j);
    assert o.height == q.boxes[i].Height();
    CaptureSampleOf(q);
  }

  lemma CaptureSampleOf(q: CaptureRequest)
    requires Succeeded(q)
    ensures CaptureSample(q)[0] == q.operatorCm * OutcomeOf(q).height as real
  {
  }

  /** With the detector's corners in order and a positive typed distance,
      every sample is positive ... */
  lemma {:induction false} SamplesPositive(qs: seq<CaptureRequest>)
    requires forall n :: 0 <= n < |qs| ==> qs[n].operatorCm > 0.0
    requires forall n, i :: 0 <= n < |qs| && 0 <= i < |qs[n].boxes| ==> qs[n].boxes[i].WellFormed()
    ensures forall m :: 0 <= m < |Samples(qs)| ==> Samples(qs)[m] > 0.0
    decreases |qs|
  {
    if qs != [] {
      var q := qs[0];
      var rest := qs[1..];
      assert forall n :: 0 <= n < |rest| ==> rest[n] == qs[n + 1];
      SamplesPositive(rest);
      if Succeeded(q) {
        CapturedHeightPositive(q.boxes, q.frameWidth);
        PositiveProduct(q.operatorCm, OutcomeOf(q).height as real);
        CaptureSampleOf(q);
      }
      assert Samples(qs) == CaptureSample(q) + Samples(rest);
    }
  }

  /** ... and so is the constant K the session commits. */
  lemma MeanOfSamplesPositive(qs: seq<CaptureRequest>)
    requires forall n :: 0 <= n < |qs| ==> qs[n].operatorCm > 0.0
    requires forall n, i :: 0 <= n < |qs| && 0 <= i < |qs[n].boxes| ==> qs[n].boxes[i].WellFormed()
    requires Samples(qs) != []
    ensures Mean(Samples(qs)) > 0.0
  {
    var s := Samples(qs);
    SamplesPositive(qs);
    MeanBetween(s);
    assert Min(s) in s;
  }

  lemma PositiveProduct(a: real, b: real)
    requires a > 0.0 && b > 0.0
    ensures a * b > 0.0
  {
  }

  /** Python's `sum`, adding left to right. */
  function Sum(s: seq<real>): real
    decreases |s|
  {
    if s == [] then 0.0 else Sum(s[..|s| - 1]) + s[|s| - 1]
  }

  /** The arithmetic mean: the value that, taken once per sample, adds up to the sum. */
  function Mean(s: seq<real>): (m: real)
    requires s != []
    ensures m * (|s| as real) == Sum(s)
  {
    DivTimes(Sum(s), |s| as real);
    Sum(s) / |s| as real
  }

  function Min(s: seq<real>): (m: real)
    requires s != []
    ensures m in s && forall i :: 0 <= i < |s| ==> m <= s[i]
    decreases |s|
  {
    if |s| == 1 then s[0]
    else
      var m := Min(s[1..]);
      if s[0] <= m then s[0] else m
  }

  function Max(s: seq<real>): (m: real)
    requires s != []
    ensures m in s && forall i :: 0 <= i < |s| ==> s[i] <= m
    decreases |s|
  {
    if |s| == 1 then s[0]
    else
      var m := Max(s[1..]);
      if s[0] >= m then s[0] else m
  }

  lemma {:induction false} SumBounds(s: seq<real>, lo: real, hi: real)
    requires forall i :: 0 <= i < |s| ==> lo <= s[i] <= hi
    ensures |s| as real * lo <= Sum(s) <= |s| as real * hi
    decreases |s|
  {
    if s != [] {
      SumBounds(s[..|s| - 1], lo, hi);
    }
  }

  /** The mean of the samples lies between the smallest and the largest. */
  lemma MeanBetween(s: seq<real>)
    requires s != []
    ensures Min(s) <= Mean(s) <= Max(s)
  {
    var n, lo, hi := |s| as real, Min(s), Max(s);
    SumBounds(s, lo, hi);
    DivBounds(Sum(s), n, lo, hi);
    assert Mean(s) == Sum(s) / n;
  }

  lemma DivBounds(x: real, n: real, lo: real, hi: real)
    requires n > 0.0 && n * lo <= x <= n * hi
    ensures lo <= x / n <= hi
  {
  }

  /** How the session ended. */
  datatype Outcome = Cancelled | Completed(k: real)

  /** The stored K after leaving calibration with `samples`. */
  datatype Committed = Committed(k: Option<real>, outcome: Outcome)

  function Commit(k: Option<real>, samples: seq<real>): (r: Committed)
    ensures samples == [] ==> r.outcome.Cancelled? && r.k == k
    ensures samples != [] ==> r.outcome.Completed? && r.k == Some(r.outcome.k)
    ensures samples != [] ==> r.outcome.k == Mean(samples)
    ensures samples != [] ==> Min(samples) <= r.outcome.k <= Max(samples)
  {
    if samples == [] then Committed(k, Cancelled)
    else
      MeanBetween(samples);
      Committed(Some(Mean(samples)), Completed(Mean(samples)))
  }

  lemma DivTimes(x: real, n: real)
    requires n != 0.0
    ensures x / n * n == x
  {
  }

  /** Two samples average to half their sum. */
  lemma TwoSamples(d1: real, h1: real, d2: real, h2: real)
    ensures Commit(None, [d1 * h1, d2 * h2]).k == Some((d1 * h1 + d2 * h2) / 2.0)
  {
    var s := [d1 * h1, d2 * h2];
    assert s[..1] == [d1 * h1];
    assert [d1 * h1][..0] == [];
    assert Sum([d1 * h1]) == d1 * h1;
    assert Sum(s) == d1 * h1 + d2 * h2;
  }

  /** A whole session: the opening announcement, the capture requests, and
      the closing announcement, each with the world during its speech. */
  datatype Session = Session(opening: SpeakCall, requests: seq<CaptureRequest>, closing: SpeakCall)

  predicate SessionWellTimed(s: Session) {
    && WellTimed(s.opening) && WellTimed(s.closing)
    && forall i :: 0 <= i < |s.requests| ==> WellTimed(s.requests[i].prompt)
  }

  function Closing(o: Outcome): string {
    if o.Cancelled? then "Calibration cancelled" else "Calibration completed"
  }

  /** The prompts spoken for the requests, in order: the prompts of all
      presses but the last, then the last press's prompt. */
  function SpeakPrompts(t: Throttle, qs: seq<CaptureRequest>): (r: Spoken)
    requires forall i :: 0 <= i < |qs| ==> WellTimed(qs[i].prompt)
    ensures Follows(t, r) && |r.plays| <= |qs|
    ensures forall p | p in r.plays ::
      exists i :: 0 <= i < |qs| && p == Play(Prompt(OutcomeOf(qs[i])), qs[i].prompt.now, qs[i].prompt.finishedAt)
    decreases |qs|
  {
    if qs == [] then Silent(t)
    else
      var n := |qs| - 1;
      var earlier := qs[..n];
      assert forall i :: 0 <= i < n ==> earlier[i] == qs[i];
      var a := SpeakPrompts(t, earlier);
      var last := Speak(a.throttle, Prompt(OutcomeOf(qs[n])), qs[n].prompt);
      FollowsThen(t, a, last);
      Then(a, last)
  }

  /** A further press speaks its own prompt through the throttle the earlier
      presses left, as the capture loop runs. */
  lemma SpeakPromptsAppend(t: Throttle, qs: seq<CaptureRequest>, q: CaptureRequest)
    requires forall i :: 0 <= i < |qs| ==> WellTimed(qs[i].prompt)
    requires WellTimed(q.prompt)
    ensures var a := SpeakPrompts(t, qs);
      SpeakPrompts(t, qs + [q]) == Then(a, Speak(a.throttle, Prompt(OutcomeOf(q)), q.prompt))
  {
    var longer := qs + [q];
    assert longer[..|qs|] == qs && longer[|qs|] == q;
  }

  datatype SessionResult = SessionResult(k: Option<real>, outcome: Outcome, speech: Spoken)

  function RunSession(t: Throttle, k: Option<real>, s: Session): (r: SessionResult)
    requires SessionWellTimed(s)
    ensures Follows(t, r.speech)
    ensures var g := Speak(t, "Calibration mode activated", s.opening);
      var p := Then(g, SpeakPrompts(g.throttle, s.requests));
      r.speech == Then(p, Speak(p.throttle, Closing(r.outcome), s.closing))
    ensures r.outcome.Cancelled? <==> forall i :: 0 <= i < |s.requests| ==> !Succeeded(s.requests[i])
    ensures r.outcome.Cancelled? ==> r.k == k
    ensures r.outcome.Completed? ==> r.k == Some(r.outcome.k)
    ensures r.outcome.Completed? ==> Samples(s.requests) != [] && r.outcome.k == Mean(Samples(s.requests))
    ensures r.outcome.Completed? ==> Min(Samples(s.requests)) <= r.outcome.k <= Max(Samples(s.requests))
  {
    var greeted := Speak(t, "Calibration mode activated", s.opening);
    var prompts := SpeakPrompts(greeted.throttle, s.requests);
    var c := Commit(k, Samples(s.requests));
    var closed := Speak(prompts.throttle, Closing(c.outcome), s.closing);
    NoSamplesIffNoCapture(s.requests);
    FollowsThen(t, greeted, prompts);
    FollowsThen(t, Then(greeted, prompts), closed);
    SessionResult(c.k, c.outcome, Then(Then(greeted, prompts), closed))
  }
}

=== FILE: speech.dfy ===
/** The speech throttle of `speak`: one timestamp, a 2.0 s cooldown, and a
    timestamp that moves only when playback succeeds. The clock and the
    text-to-speech engine are outside the model: each call receives the time
    it starts, whether playback succeeds, and the time read after playback. */
module Speech {

  const Cooldown: real := 2.0

  /** The fixed pause after playback, before the clock is read again. */
  const PlaybackBuffer: real := 0.3

  /** `_last_speech_time`: when the last successful playback finished. */
  datatype Throttle = Throttle(last: real)

  const Initial := Throttle(0.0)

  /** What the world does during one call: the clock on entry, whether the
      engine plays without raising, and the clock after the buffer pause. */
  datatype SpeakCall = SpeakCall(now: real, playbackOk: bool, finishedAt: real)

  /** The clock read after playback and the 0.3 s pause is at least that much
      later than the clock read on entry. */
  predicate WellTimed(c: SpeakCall) {
    c.finishedAt >= c.now + PlaybackBuffer
  }

  predicate AllWellTimed(cs: seq<SpeakCall>) {
    forall i :: 0 <= i < |cs| ==> WellTimed(cs[i])
  }

  /** One playback that actually happened. */
  datatype Play = Play(text: string, start: real, finish: real)

  /** A throttle after some calls, and the playbacks those calls made, in order. */
  datatype Spoken = Spoken(throttle: Throttle, plays: seq<Play>)

  /** Each playback starts at least a cooldown after the previous one (or
      `last`, for the first) finished, and finishes no earlier than it starts. */
  ghost predicate Spaced(last: real, plays: seq<Play>)
    decreases |plays|
  {
    plays == [] ||
    (plays[0].start - last >= Cooldown && plays[0].finish >= plays[0].start
     && Spaced(plays[0].finish, plays[1..]))
  }

  function LastFinish(last: real, plays: seq<Play>): real {
    if plays == [] then last else plays[|plays| - 1].finish
  }

  /** Going from throttle `t` to `r.throttle` made exactly the playbacks
      `r.plays`, spaced by the cooldown, and the timestamp now records the
      end of the last of them. */
  ghost predicate Follows(t: Throttle, r: Spoken) {
    Spaced(t.last, r.plays) && r.throttle.last == LastFinish(t.last, r.plays)
  }

  /** `speak(text)`. */
  function Speak(t: Throttle, text: string, call: SpeakCall): (r: Spoken)
    requires WellTimed(call)
    ensures Follows(t, r)
    ensures r.plays != [] <==> call.now - t.last >= Cooldown && call.playbackOk
    ensures r.plays == [] ==> r.throttle == t
    ensures r.plays != [] ==> r.plays == [Play(text, call.now, call.finishedAt)]
    ensures r.throttle.last >= t.last
  {
    if call.now - t.last < Cooldown then Spoken(t, [])
    else if !call.playbackOk then Spoken(t, [])
    else Spoken(Throttle(call.finishedAt), [Play(text, call.now, call.finishedAt)])
  }

  /** No effect: the throttle untouched and nothing played. */
  function Silent(t: Throttle): (r: Spoken)
    ensures Follows(t, r) && r.plays == []
  {
    Spoken(t, [])
  }

  /** `b` continues from where `a` left off. */
  function Then(a: Spoken, b: Spoken): Spoken {
    Spoken(b.throttle, a.plays + b.plays)
  }

  /** Running one stretch of calls after another is again a run of the throttle. */
  lemma {:induction false} FollowsThen(t: Throttle, a: Spoken, b: Spoken)
    requires Follows(t, a) && Follows(a.throttle, b)
    ensures Follows(t, Then(a, b))
  {
    SpacedAppend(t.last, a.plays, b.plays);
    if b.plays == [] {
      assert a.plays + b.plays == a.plays;
    } else {
      assert (a.plays + b.plays)[|a.plays + b.plays| - 1] == b.plays[|b.plays| - 1];
    }
  }

  lemma {:induction false} SpacedAppend(last: real, p: seq<Play>, q: seq<Play>)
    requires Spaced(last, p) && Spaced(LastFinish(last, p), q)
    ensures Spaced(last, p + q)
    decreases |p|
  {
    if p == [] {
      assert p + q == q;
    } else {
      assert (p + q)[0] == p[0];
      assert (p + q)[1..] == p[1..] + q;
      if p[1..] != [] {
        assert p[1..][|p[1..]| - 1] == p[|p| - 1];
      }
      SpacedAppend(p[0].finish, p[1..], q);
    }
  }

  /** Every playback of a spaced run starts a cooldown after `last`, and the
      run's finishing times never go backwards. */
  lemma {:induction false} SpacedAfter(last: real, plays: seq<Play>, i: int)
    requires Spaced(last, plays) && 0 <= i < |plays|
    ensures plays[i].start >= last + Cooldown
    ensures plays[i].finish >= last + Cooldown
    decreases i
  {
    if i > 0 {
      SpacedAfter(plays[0].finish, plays[1..], i - 1);
    }
  }

  /** Any two playbacks of a spaced run are at least a cooldown apart: the
      later one starts at least 2.0 s after the earlier one finished. */
  lemma {:induction false} PlaysApart(last: real, plays: seq<Play>, i: int, j: int)
    requires Spaced(last, plays) && 0 <= i < j < |plays|
    ensures plays[j].start >= plays[i].finish + Cooldown
    ensures plays[j].start >= plays[i].start + Cooldown
    decreases i
  {
    if i == 0 {
      SpacedAfter(plays[0].finish, plays[1..], j - 1);
    } else {
      PlaysApart(plays[0].finish, plays[1..], i - 1, j - 1);
    }
  }

  /** A call made within the cooldown of a successful one's start is dropped. */
  lemma SecondCallInsideCooldownIsDropped(t: Throttle, c1: SpeakCall, c2: SpeakCall, s1: string, s2: string)
    requires WellTimed(c1) && WellTimed(c2)
    requires Speak(t, s1, c1).plays != []
    requires c2.now - c1.now < Cooldown
    ensures Speak(Speak(t, s1, c1).throttle, s2, c2).plays == []
  {
  }
}

=== FILE: voice.dfy ===
/** The command branch of `voice_listener`: the recognised phrase is
    lower-cased and searched for "start detection", "stop detection" and
    "calibrate", in that order; the first that occurs decides the command.
    Listening, recognition and the listener thread are outside the model: a
    recognition is the transcribed text, or nothing when recognition failed. */
module Voice {
  import opened Wrappers
  import opened Speech

  /** The flags the listener shares with the main loop: `active_detection`
      and the one-shot calibration request (the `DO_CALIBRATE` file). */
  datatype Control = Control(active: bool, calibPending: bool)

  const InitialControl := Control(false, false)

  datatype Command = StartDetection | StopDetection | Calibrate | NoCommand

  function LowerChar(c: char): (r: char)
    ensures 'A' <= c <= 'Z' ==> r as int == c as int + 32
    ensures !('A' <= c <= 'Z') ==> r == c
  {
    if 'A' <= c <= 'Z' then (c as int + 32) as char else c
  }

  /** `str.lower()` on the letters A to Z; other characters are kept. */
  function Lower(s: string): (r: string)
    ensures |r| == |s|
    ensures forall i :: 0 <= i < |s| ==> r[i] == LowerChar(s[i])
    ensures forall i :: 0 <= i < |r| ==> !('A' <= r[i] <= 'Z')
  {
    seq(|s|, i requires 0 <= i < |s| => LowerChar(s[i]))
  }

  /** Lower-casing twice is lower-casing once. */
  lemma LowerIdempotent(s: string)
    ensures Lower(Lower(s)) == Lower(s)
  {
  }

  /** `p` occurs in `s` starting at position `i`. */
  predicate OccursAt(p: string, s: string, i: int) {
    0 <= i <= |s| - |p| && s[i..i + |p|] == p
  }

  /** Python's `p in s` for strings: `p` occurs in `s` at some position. */
  ghost predicate Occurs(p: string, s: string) {
    exists i :: OccursAt(p, s, i)
  }

  /** Substring search, trying each starting position from the left. */
  function Contains(s: string, p: string): (b: bool)
    ensures b <==> Occurs(p, s)
    decreases |s|
  {
    if |s| < |p| then false
    else if s[..|p|] == p then
      assert OccursAt(p, s, 0);
      true
    else
      var rest := Contains(s[1..], p);
      if rest then
        var i :| OccursAt(p, s[1..], i);
        assert s[i + 1..i + 1 + |p|] == s[1..][i..i + |p|];
        assert OccursAt(p, s, i + 1);
        true
      else
        assert forall i :: OccursAt(p, s, i) ==> i == 0 || OccursAt(p, s[1..], i - 1) by {
          forall i | OccursAt(p, s, i) && i != 0
            ensures OccursAt(p, s[1..], i - 1)
          {
            assert s[1..][i - 1..i - 1 + |p|] == s[i..i + |p|];
          }
        }
        false
  }

  const StartPhrase := "start detection"
  const StopPhrase := "stop detection"
  const CalibratePhrase := "calibrate"

  /** The command a recognised phrase selects. */
  function Classify(heard: string): (c: Command)
    ensures c.StartDetection? <==> Occurs(StartPhrase, Lower(heard))
    ensures c.StopDetection? <==> !Occurs(StartPhrase, Lower(heard)) && Occurs(StopPhrase, Lower(heard))
    ensures c.Calibrate? <==>
      !Occurs(StartPhrase, Lower(heard)) && !Occurs(StopPhrase, Lower(heard)) && Occurs(CalibratePhrase, Lower(heard))
    ensures c.NoCommand? <==>
      !Occurs(StartPhrase, Lower(heard)) && !Occurs(StopPhrase, Lower(heard)) && !Occurs(CalibratePhrase, Lower(heard))
  {
    var cmd := Lower(heard);
    if Contains(cmd, StartPhrase) then StartDetection
    else if Contains(cmd, StopPhrase) then StopDetection
    else if Contains(cmd, CalibratePhrase) then Calibrate
    else NoCommand
  }

  /** Commands ignore letter case. */
  lemma ClassifyIgnoresCase(heard: string)
    ensures Classify(Lower(heard)) == Classify(heard)
  {
    LowerIdempotent(heard);
  }

  /** The effect of a command on the shared flags. */
  function Apply(ctl: Control, c: Command): (r: Control)
    ensures c.StartDetection? ==> r.active && r.calibPending == ctl.calibPending
    ensures c.StopDetection? ==> !r.active && r.calibPending == ctl.calibPending
    ensures c.Calibrate? ==> !r.active && r.calibPending
    ensures c.NoCommand? ==> r == ctl
  {
    match c
    case StartDetection => ctl.(active := true)
    case StopDetection => ctl.(active := false)
    case Calibrate => Control(false, true)
    case NoCommand => ctl
  }

  /** Repeating a command changes nothing further. */
  lemma ApplyIdempotent(ctl: Control, c: Command)
    ensures Apply(Apply(ctl, c), c) == Apply(ctl, c)
  {
  }

  /** The spoken confirmation of a command. */
  function Confirmation(c: Command): Option<string> {
    match c
    case StartDetection => Some("Detection started")
    case StopDetection => Some("Detection stopped")
    case Calibrate => Some("Calibration starting")
    case NoCommand => None
  }

  datatype Heard = Heard(control: Control, speech: Spoken)

  /** One pass of the listener loop: a failed recognition changes nothing;
      otherwise the command is applied and then confirmed through the throttle. */
  function Listen(ctl: Control, t: Throttle, recognised: Option<string>, call: SpeakCall): (r: Heard)
    requires WellTimed(call)
    ensures Follows(t, r.speech)
    ensures recognised.None? ==> r.control == ctl && r.speech == Silent(t)
    ensures recognised.Some? ==> r.control == Apply(ctl, Classify(recognised.value))
    ensures r.speech.plays != [] ==> recognised.Some? && !Classify(recognised.value).NoCommand?
    ensures recognised.Some? && Classify(recognised.value).NoCommand? ==> r.speech == Silent(t)
    ensures recognised.Some? && !Classify(recognised.value).NoCommand? ==>
      r.speech == Speak(t, Confirmation(Classify(recognised.value)).value, call)
  {
    match recognised
    case None => Heard(ctl, Silent(t))
    case Some(text) =>
      var c := Classify(text);
      match Confirmation(c)
      case None => Heard(Apply(ctl, c), Silent(t))
      case Some(reply) => Heard(Apply(ctl, c), Speak(t, reply, call))
  }

  /** "Start Detection", capitalised, switches detection on. */
  lemma CapitalisedStart()
    ensures Classify("Start Detection") == StartDetection
  {
    var l := Lower("Start Detection");
    assert l[0] == 's' && l[6] == 'd';
    assert l == StartPhrase;
    assert OccursAt(StartPhrase, l, 0);
  }

  /** A phrase naming both start and stop counts as start, the first check. */
  lemma StartBeatsStop()
    ensures Classify("stop detection start detection") == StartDetection
  {
    var l := Lower("stop detection start detection");
    assert OccursAt(StartPhrase, l, 15);
  }
}

=== FILE: wrappers.dfy ===
/** Optional values: the model's stand-in for Python's None. */
module Wrappers {

  datatype Option<+T> = None | Some(value: T) {

    /** The wrapped value, or `default` when there is none. */
    function GetOr(default: T): T {
      match this
      case Some(v) => v
      case None => default
    }
  }
}
